=== FILE: README.md ===
# Sale transactions of the inventory application, in Dafny

This project models the core of a small Django inventory and sales application. The core is the handler that turns a submitted cart into a sale (`RealizarVenda.post`). The model also covers the stock check-and-decrement that a new sale line performs when it is saved (`ItemVenda.save`), line subtotals and sale totals, and the arithmetic of the weekly sales report.

The model is functional. The database is a value `Store`, holding the items (stock, price, owner), the existing customers and the list of sales. The handler is a pure function `Sales.ProcessSale`. It returns `Committed(newStore, saleId)` or `Refused(originalStore, failure)`. The atomic block of the handler is modelled as running the cart on a copy and throwing the copy away on failure. The cart loop is a left-to-right fold, `Sales.Run`. Each iteration sees the stock that the earlier lines left.

Modules:

- `Wrappers` (wrappers.dfy): `Option` and `Result`.
- `PyInt` (pyint.dfy): Python's `int()` on decoded JSON values and on form strings. The handler uses it for the item id, the quantity and the customer id.
- `Models` (models.dfy): the entities of models.py, `ItemVenda.save` as `SaveLine`, subtotal and total.
- `Sales` (sales.dfy): the sale handler.
- `SaleProperties` (sale_properties.dfy): lemmas that relate several lines or calls, and worked examples.
- `Report` (report.dfy): the week start, the selected sales, the row totals and the grand total of the weekly report.

Conventions:

- Money is integer cents, since prices are decimals with two places.
- Dates are proleptic Gregorian ordinals. Ordinal 1 is 0001-01-01, a Monday, so the weekday is `(ordinal + 6) % 7`, the same weekday Python computes.
- Sale ids are positions in the sale list plus one.
- The request's clock (`today`), the acting user and JSON decoding are parameters. JSON decoding is a function `decode` whose `None` stands for a decode error.

The handler as written decrements stock twice per line:

- `ItemVenda.objects.create` runs `ItemVenda.save`, which already lowers the item's stock by the quantity.
- The handler then lowers the same item object by the quantity again.

The model therefore takes a `Revision`:

- `AsWritten` follows the code.
- `Corrected` keeps only the decrement in `save`.

All the other properties are proved for both revisions. See "## Findings".

Where the code departs from the application's intended design, the model follows the code:

- A customer id that names no customer does not produce an "invalid customer" error. `Cliente.objects.get` raises outside any handler, so the request ends in an uncaught exception (`CustomerLookupFailed`, with no rendered message), and nothing has been written.
- Item stock is not kept non-negative: the column is a plain integer, and the as-written double decrement drives it below zero.
- views.py uses `ItemInventario`, which is never defined, and it lacks imports for `json`, `transaction`, `Cliente`, `Venda`, `ItemVenda`, `messages`, `datetime`, `os`, `settings`, `Workbook` and `HttpResponse`. As written, every sale POST raises `NameError` on its first line. The model reads `ItemInventario` as `InventoryItem` and assumes the missing imports are present.

## Model

| member | source | states |
|---|---|---|
| PyInt.ToInt | inventory_management/inventory/views.py:122 | int() of a JSON integer is that integer; of a decimal number it truncates toward zero (the result times the scale lies between zero and the number, within one scale unit); true/false give 1/0; null and arrays/objects raise; text converts as `ParseInt` reads it, which accepts exactly an optional sign followed by one or more decimal digits (`PyInt.ParseIntAccepts`), so "abc", "2.5" or "1.0" raise |
| PyInt.ParseIntAccepts | inventory_management/inventory/views.py:122 | int() of a string succeeds if and only if the string is an optional sign followed by at least one decimal digit and nothing else |
| PyInt.NonIntegerTextExample | inventory_management/inventory/views.py:122 | worked example: "abc", "2.5", "1.0", a lone "-" and the empty string do not convert |
| PyInt.TruncDiv | inventory_management/inventory/views.py:122 | truncation toward zero: for a >= 0, q*d <= a < q*d + d; for a < 0, q*d - d < a <= q*d <= 0 |
| PyInt.ParseIntShow | inventory_management/inventory/views.py:122 | int(str(n)) == n for every integer n: a quantity or id sent as text converts back to the number written |
| PyInt.ToIntOfText | inventory_management/inventory/views.py:122 | a quantity or id sent as the canonical text of an integer n converts with int() to n |
| PyInt.DigitsValueLeadingZero | inventory_management/inventory/views.py:122 | a leading zero does not change the value of a run of decimal digits |
| PyInt.ParseIntPlusAndZero | inventory_management/inventory/views.py:122 | int() gives the same number for text with a "+" sign or leading zeros as for its plain digits, and "-0" followed by digits is the negation of those digits; with PyInt.ParseIntShow this fixes the value of every accepted text |
| PyInt.SignedTextExample | inventory_management/inventory/views.py:122 | worked example: "+5" gives 5 and "-0" gives 0 |
| PyInt.LeadingZerosExample | inventory_management/inventory/views.py:122 | worked example: "007" gives 7 and "-007" gives -7 |
| Models.SaveLine | inventory_management/inventory/models.py:56-63 | saving a new line succeeds exactly when stock >= quantity; it then lowers stock by exactly the quantity and never below zero, and changes nothing else; otherwise it raises the stock-shortage error for that item and nothing changes; re-saving a line that has a primary key leaves stock alone |
| Models.SaveLineEmptiesStock | inventory_management/inventory/models.py:58-59 | the boundary case: stock equal to the quantity is accepted and leaves stock at 0 |
| Models.TotalOfOneLine | inventory_management/inventory/models.py:65-66 | a line's subtotal is quantity times unit price, and a one-line sale totals exactly that |
| Models.TotalAppend | inventory_management/inventory/models.py:47-48 | the sale total is additive over any split of its lines, so the empty sale totals 0 |
| Models.TotalNonNegative | inventory_management/inventory/models.py:47-48 | with no negative unit price, a total is >= 0, and it is 0 exactly when every line's subtotal is 0 |
| Sales.ResolveItem | inventory_management/inventory/views.py:121 | the item lookup succeeds if and only if the id field is present, converts with int() and names one of the acting user's items, and then returns exactly that id; a missing key, a null id (an IS NULL lookup that finds nothing), an id that does not convert and an id of no item of the user each give their own error |
| Sales.SellLine | inventory_management/inventory/views.py:119-138 | one cart line succeeds exactly when it names one of the user's items and a whole quantity in 1..current stock; the line then carries that item and quantity with the item's current price, and that item's stock drops by Factor(rev) times the quantity with every other item unchanged; a failing line gets the error of the first check it fails, in the handler's order: not an object, item lookup, missing or unconvertible quantity, quantity <= 0 (carrying that quantity), quantity above stock (carrying the item's name) |
| Sales.Run | inventory_management/inventory/views.py:119-146 | the cart loop: on success, exactly one line per cart entry, with item names, prices and owners unchanged and no item added or removed; on failure, the position of a cart entry |
| Sales.RunLines | inventory_management/inventory/views.py:119-135 | each created line, in cart order, carries its own entry's item id and quantity and is a positive sale of one of the acting user's items at the price that item had before the loop |
| Sales.ResolveCustomer | inventory_management/inventory/views.py:115 | the customer lookup succeeds exactly when the id text converts with int() and names an existing customer |
| Sales.ProcessSale | inventory_management/inventory/views.py:79-149 | every refusal returns the store unchanged; missing customer, missing cart text, undecodable cart, empty cart and unknown customer are each refused with their own failure, if and only if the earlier checks passed and this one fails; a commit appends exactly one sale with the next id, the resolved customer, today's date and one line per cart entry (at least one), line j carrying entry j's item and quantity at that item's catalog price of the moment of sale; customers and item names, prices and owners unchanged |
| Sales.Message | inventory_management/inventory/views.py:85-146 | the unknown-customer failure renders no form and so no message; a missing customer shows "Selecione um cliente." and every form check shows a non-empty text; a line failure's message, where modelled, starts with "Erro ao adicionar item: ", followed by the stock-shortage text for a short item and by the query layer's not-found text for an item that is not found |
| Sales.FormMessagesDistinct | inventory_management/inventory/views.py:85-146 | the four form checks show four different messages, and none of them is the message of any line failure |
| SaleProperties.RunStock | inventory_management/inventory/views.py:130-138 | after the cart loop, each item's stock equals its stock before, minus Factor(rev) times the quantity the created lines sell of it |
| SaleProperties.RunFirstFailure | inventory_management/inventory/views.py:119-146 | the loop fails at position i with error e if and only if the first i lines succeed and line i fails with e against the stock they left: lines run in order and processing stops at the first failure |
| SaleProperties.LaterLinesSeeEarlierDecrements | inventory_management/inventory/views.py:121-138 | once the first i lines have succeeded, line i sees stock already lowered by what they sold, and the cart fails at i if and only if line i is not sellable against that stock |
| SaleProperties.CorrectedRunSoldStock | inventory_management/inventory/models.py:58-60 | with the single decrement, every item the cart sells ends with stock >= 0, whatever stock it started with: each line is checked against the stock the earlier lines left |
| SaleProperties.CorrectedRunKeepsStock | inventory_management/inventory/models.py:58-60 | with the single decrement, a sale that starts with no negative stock leaves none |
| SaleProperties.LinesAtCatalogPrices | inventory_management/inventory/views.py:130-135 | lines created against a catalog total the same as their quantities at that catalog's prices: each line keeps its own copy of the price |
| SaleProperties.ProcessSaleStock | inventory_management/inventory/views.py:130-138 | on commit, each item's stock drops by Factor(rev) times what the new sale sells of it: twice as written, once when corrected |
| SaleProperties.CommittedSaleTotal | inventory_management/inventory/views.py:130-135 | a committed sale's total equals its quantities priced at the catalog prices of the moment of sale |
| SaleProperties.ProcessSaleFirstFailure | inventory_management/inventory/views.py:117-146 | once the form checks pass and the customer resolves, the request is refused at line i with error e if and only if the first i lines succeed and line i fails with e |
| SaleProperties.DoubleDecrementExample | inventory_management/inventory/views.py:130-138 | worked example: stock 5, price 10.00, sell 3; as written, stock ends at -1; corrected, it ends at 2; both record one line of 3 at 1000 cents |
| SaleProperties.SameItemTwiceExample | inventory_management/inventory/views.py:121-138 | worked example: two lines of 2 against stock 5; corrected, both sell and stock ends at 1; as written, the second line is refused for insufficient stock |
| SaleProperties.InsufficientStockExample | inventory_management/inventory/views.py:127-128 | worked example: asking 5 of an item with stock 2 refuses the request at line 0 with insufficient stock, and the store is unchanged |
| SaleProperties.NullItemIdExample | inventory_management/inventory/views.py:121 | worked example: a cart line with a null item id is refused at line 0 as an item that is not found, with the not-found message, and nothing is sold |
| SaleProperties.SequentialCartsExample | inventory_management/inventory/views.py:117-149 | worked example: two requests for 3 of an item with stock 5, in sequence; the first commits, the second is refused for insufficient stock and leaves the first one's state |
| Report.WeekStart | inventory_management/inventory/views.py:154-155 | the week start is a Monday, on or before today, at most 6 days earlier, and no Monday lies after it up to today |
| Report.RowsAreSelectedSales | inventory_management/inventory/views.py:156-173 | every report row is a sale dated on or after the week start and carries that sale's date, customer and total; rows are in increasing id order |
| Report.SelectedSalesHaveRows | inventory_management/inventory/views.py:156-173 | every sale dated on or after the week start has a row |
| Report.WeeklyReport | inventory_management/inventory/views.py:153-176 | returns the week start, the rows for the selected sales, and a grand total equal both to the sum of the row totals and to the total of all lines of the selected sales |

## Findings

| source | as written | input that shows it | evidently intended | confidence | as-written member | corrected member |
|---|---|---|---|---|---|---|
| inventory_management/inventory/views.py:137-138 | each sold line lowers stock twice by the quantity: once in `ItemVenda.save` (models.py:58-60) and again in the handler; stock can end negative | item with stock 5, price 10.00; cart `[{"item_id": 1, "quantidade": 3}]`: stock ends at -1 | stock drops once by the sold quantity, to 2, and never below zero | not executed | SaleProperties.DoubleDecrementExample | SaleProperties.CorrectedRunSoldStock |

Both revisions share one definition: `Sales.ProcessSale(AsWritten, …)` follows the code and `Sales.ProcessSale(Corrected, …)` is the corrected handler. `SaleProperties.ProcessSaleStock` proves the exact stock change for both: twice the sold quantity as written, once when corrected. `SaleProperties.SameItemTwiceExample` shows a second effect: as written, a cart that names the same item twice can be refused even though the stock covers it.

## Left out

- PyInt.ToInt: Python's `int()` also accepts text with surrounding whitespace, `_` between digits and non-ASCII decimal digits. The model treats such text as not convertible. It also does not model float rounding of long decimals, the `OverflowError` for infinities, or the JSON constant `NaN` (for which `int()` raises `ValueError`); the JSON value type has no infinities and no `NaN`.
- Sales.ResolveCustomer: the customer id text is converted with the same digits-only reading, so an id with surrounding whitespace, `_` or non-ASCII digits, which the database lookup would accept, is modelled as an unknown customer.
- Sales.ProcessSale: the decoded cart is modelled only as a JSON list. Other JSON values are left out: a falsy one (`{}`, `0`, `null`, `""`) takes the empty-cart branch, a non-empty object is iterated by key, and a non-zero number raises an uncaught `TypeError`.
- Sales.Message: for the exceptions that Python or Django raise with value-dependent text, the exact text is not modelled. These are a non-object cart element, an id or quantity that does not convert, and the uncaught customer lookup. `Message` returns `None` for them.
- Sales.ProcessSale: sale ids are list position plus one. That matches a database that reuses the ids of rolled-back inserts. Databases whose id sequences skip after a rollback are not modelled.
- The acting user is a parameter. The sale view does not require a login, and what an anonymous user does to the owner filter is not modelled.
- The item and customer querysets built at the top of the handler only feed the re-rendered form. They are not modelled, and neither are the GET handler, templates, redirects or the success message.
- Database integer and decimal column ranges, and the 28-digit decimal context, are not modelled: integers are unbounded.
- Database isolation and concurrent sales are left out. The atomic block is modelled as snapshot-and-restore within one sequential request.
- Report.WeeklyReport: rows come in sale-id order. The source's query has no ordering, so the database's order is unspecified. Sale dates are taken as already converted to local dates.
- Report.WeeklyReport: the workbook, date and money formatting, the reports directory, the file write and read, and the download response are I/O and are left out. Rows carry the customer id instead of the customer's name.
- The index, dashboard, sign-up, login, item create/edit/delete and order-list views, URL routing, forms, and category deletion rules are framework glue with no logic of their own, and are left out.

=== FILE: models.dfy ===
/**
 * The persisted entities of the inventory application and the behaviour
 * attached to them: an inventory item, a sale and its lines, the stock
 * check-and-decrement a new sale line performs when it is saved, and the
 * line subtotal and sale total.
 */
module Models {
  import opened Wrappers

  type ItemId = int
  type UserId = int
  type CustomerId = int

  /** Money as integer cents: prices are decimals with two places. */
  type Cents = int

  /** A calendar date as a proleptic Gregorian ordinal: 1 is 0001-01-01 and
      MaxOrdinal is 9999-12-31, the range of a Python date. */
  const MaxOrdinal: int := 3_652_059

  type Ordinal = d: int | 1 <= d <= MaxOrdinal witness 1

  /** An inventory item. Its stock is a plain integer column, so nothing in
      the schema keeps it from going negative. */
  datatype Item = Item(name: string, quantity: int, price: Cents, owner: UserId)

  /** One sale line: the item sold, how many, and the unit price copied from
      the item when the line was created. */
  datatype Line = Line(item: ItemId, quantity: nat, unitPrice: Cents)

  /** A sale: its customer, the local date it was created on, its lines. */
  datatype Sale = Sale(customer: CustomerId, day: Ordinal, lines: seq<Line>)

  /** The error saving a new line raises when the item has too little stock. */
  datatype SaveError = StockShortage(itemName: string)

  function StockShortageText(e: SaveError): string {
    "Estoque insuficiente para o item " + e.itemName + "."
  }

  /**
   * Saving a sale line. A line that is not yet persisted checks the item's
   * stock and decrements it by the line quantity before the line row is
   * written; a line that already has a primary key is written without
   * touching stock. Ok carries the item as it is afterwards; Err means the
   * line was not written and the item was not changed.
   */
  function SaveLine(item: Item, quantity: nat, persisted: bool): (r: Result<Item, SaveError>)
    ensures r.Ok? <==> persisted || quantity <= item.quantity
    ensures r.Err? ==> r.error == StockShortage(item.name)
    ensures r.Ok? ==> r.value.name == item.name && r.value.price == item.price && r.value.owner == item.owner
    ensures r.Ok? && persisted ==> r.value.quantity == item.quantity
    ensures r.Ok? && !persisted ==> r.value.quantity + quantity == item.quantity && r.value.quantity >= 0
  {
    if !persisted then
      if item.quantity >= quantity then Ok(item.(quantity := item.quantity - quantity))
      else Err(StockShortage(item.name))
    else Ok(item)
  }

  /** Stock equal to the quantity is enough: the item is left with none. */
  lemma SaveLineEmptiesStock(item: Item)
    requires item.quantity >= 0
    ensures SaveLine(item, item.quantity, false) == Ok(item.(quantity := 0))
  {
  }

  function Subtotal(l: Line): int {
    l.quantity * l.unitPrice
  }

  /** The total of a sale: the sum of its lines' subtotals. */
  function Total(lines: seq<Line>): int {
    if |lines| == 0 then 0 else Subtotal(lines[0]) + Total(lines[1..])
  }

  /** Totals add up over concatenated line lists, whatever the split. */
  lemma {:induction false} TotalAppend(a: seq<Line>, b: seq<Line>)
    ensures Total(a + b) == Total(a) + Total(b)
  {
    if |a| == 0 {
      assert a + b == b;
    } else {
      assert (a + b)[1..] == a[1..] + b;
      TotalAppend(a[1..], b);
    }
  }

  /** A single line totals its subtotal, quantity times unit price. */
  lemma TotalOfOneLine(l: Line)
    ensures Total([l]) == l.quantity * l.unitPrice
  {
    assert [l][1..] == [];
  }

  /** With no negative unit price, a sale's total is never negative, and it
      is zero exactly when every line has quantity or price zero. */
  lemma {:induction false} TotalNonNegative(lines: seq<Line>)
    requires forall j :: 0 <= j < |lines| ==> lines[j].unitPrice >= 0
    ensures Total(lines) >= 0
    ensures Total(lines) == 0 <==> forall j :: 0 <= j < |lines| ==> Subtotal(lines[j]) == 0
  {
    if |lines| > 0 {
      TotalNonNegative(lines[1..]);
      assert forall j :: 1 <= j < |lines| ==> lines[1..][j - 1] == lines[j];
    }
  }
}

=== FILE: pyint.dfy ===
/**
 * Python's int() applied to the values a cart line carries after JSON
 * decoding, and to the customer id string of the submitted form. The sale
 * processor converts the item id, the quantity and the customer id this way
 * (Django converts an id lookup argument with int() as well).
 */
module PyInt {
  import opened Wrappers

  /** A decoded JSON value as Python's json module hands it over. */
  datatype JsonValue =
    | Number(mantissa: int, exponent: nat)  // mantissa * 10^-exponent; exponent 0 is a JSON integer
    | Text(s: string)
    | Boolean(b: bool)
    | Null
    | Container                             // a JSON array or object

  function Pow10(e: nat): (r: nat)
    ensures r >= 1
  {
    if e == 0 then 1 else 10 * Pow10(e - 1)
  }

  /** Division that truncates toward zero, as int() does to a float.
      Dafny's own division is Euclidean, so the negative case is written out. */
  function TruncDiv(a: int, d: int): (q: int)
    requires d > 0
    ensures 0 <= a ==> 0 <= q && q * d <= a < q * d + d
    ensures a < 0 ==> q <= 0 && q * d - d < a <= q * d
  {
    if a >= 0 then a / d else -((-a) / d)
  }

  predicate IsDigit(c: char) {
    '0' <= c <= '9'
  }

  predicate AllDigits(s: string) {
    forall i :: 0 <= i < |s| ==> IsDigit(s[i])
  }

  function DigitChar(n: nat): (c: char)
    requires n < 10
    ensures IsDigit(c)
  {
    ['0', '1', '2', '3', '4', '5', '6', '7', '8', '9'][n]
  }

  /** The value of a run of decimal digits, most significant first. */
  function DigitsValue(s: string): nat
    requires AllDigits(s)
  {
    if |s| == 0 then 0
    else DigitsValue(s[..|s| - 1]) * 10 + (s[|s| - 1] as int - '0' as int)
  }

  function ParseUnsigned(t: string): Option<nat> {
    if |t| > 0 && AllDigits(t) then Some(DigitsValue(t)) else None
  }

  /** int(s) on a string: an optional sign followed by at least one decimal digit. */
  function ParseInt(s: string): Option<int> {
    if |s| > 0 && (s[0] == '-' || s[0] == '+') then
      match ParseUnsigned(s[1..])
      case None => None
      case Some(n) =>
        var signed: int := if s[0] == '-' then -(n as int) else n;
        Some(signed)
    else
      match ParseUnsigned(s)
      case None => None
      case Some(n) => Some(n)
  }

  /** The text int() accepts: an optional sign, then at least one decimal
      digit and nothing else. */
  predicate IntegerText(s: string) {
    && |s| > 0
    && if s[0] == '-' || s[0] == '+' then |s| > 1 && AllDigits(s[1..]) else AllDigits(s)
  }

  /** int(s) succeeds exactly on integer text: "abc", "2.5", "1.0", "" and a
      lone sign all raise ValueError, and every character after an optional
      leading sign is a digit. */
  lemma {:induction false} ParseIntAccepts(s: string)
    ensures ParseInt(s).Some? <==> IntegerText(s)
    ensures ParseInt(s).Some? ==> forall i :: 0 < i < |s| ==> IsDigit(s[i])
  {
    if |s| > 0 && (s[0] == '-' || s[0] == '+') {
      assert forall i :: 0 < i < |s| ==> s[i] == s[1..][i - 1];
    }
  }

  /** A leading zero does not change the value of a run of digits. */
  lemma {:induction false} DigitsValueLeadingZero(t: string)
    requires AllDigits(t)
    ensures AllDigits("0" + t) && DigitsValue("0" + t) == DigitsValue(t)
  {
    var z := "0" + t;
    assert forall i :: 0 < i < |z| ==> z[i] == t[i - 1];
    if |t| > 0 {
      assert z[..|z| - 1] == "0" + t[..|t| - 1];
      DigitsValueLeadingZero(t[..|t| - 1]);
    } else {
      assert z[..|z| - 1] == [];
    }
  }

  /**
   * int() reads the same number from text in non-canonical form: a "+" sign
   * and leading zeros change nothing, so "+5", "05" and "+005" all give 5,
   * and "-0" followed by digits is the negation of those digits. With
   * ParseIntShow this fixes the value of every text ParseIntAccepts admits.
   */
  lemma ParseIntPlusAndZero(t: string)
    requires |t| > 0 && AllDigits(t)
    ensures ParseInt("+" + t) == ParseInt(t)
    ensures ParseInt("0" + t) == ParseInt(t)
    ensures ParseInt("-0" + t) == ParseInt("-" + t)
  {
    DigitsValueLeadingZero(t);
    assert ("+" + t)[1..] == t;
    assert ("-" + t)[1..] == t;
    assert ("-0" + t)[1..] == "0" + t;
    assert ("0" + t)[0] == '0';
  }

  /** The canonical decimal text of a natural number (str(n) in Python). */
  function ShowNat(n: nat): (s: string)
    ensures |s| > 0 && AllDigits(s)
  {
    if n < 10 then [DigitChar(n)] else ShowNat(n / 10) + [DigitChar(n % 10)]
  }

  /** str(n) for any integer. */
  function Show(n: int): string {
    if n < 0 then "-" + ShowNat(-n) else ShowNat(n)
  }

  lemma {:induction false} DigitsValueOfShowNat(n: nat)
    ensures DigitsValue(ShowNat(n)) == n
  {
    var s := ShowNat(n);
    if n < 10 {
      assert s[..|s| - 1] == [];
    } else {
      assert s[..|s| - 1] == ShowNat(n / 10);
      DigitsValueOfShowNat(n / 10);
    }
  }

  /** int(str(n)) == n: parsing undoes printing for every integer. */
  lemma ParseIntShow(n: int)
    ensures ParseInt(Show(n)) == Some(n)
  {
    var s := Show(n);
    if n < 0 {
      var t := ShowNat(-n);
      assert s == "-" + t;
      assert s[1..] == t;
      DigitsValueOfShowNat(-n);
      assert ParseUnsigned(t) == Some(-n);
    } else {
      var t := ShowNat(n);
      assert s == t;
      assert IsDigit(t[0]);
      DigitsValueOfShowNat(n);
      assert ParseUnsigned(t) == Some(n);
    }
  }

  /** int(v) on a decoded JSON value; None stands for the ValueError or
      TypeError int() raises. */
  function ToInt(v: JsonValue): (r: Option<int>)
    ensures v.Number? && v.exponent == 0 ==> r == Some(v.mantissa)
    ensures v.Number? ==> r.Some? && (0 <= v.mantissa ==> 0 <= r.value * Pow10(v.exponent) <= v.mantissa)
    ensures v.Number? ==> r.Some? && (v.mantissa < 0 ==> v.mantissa <= r.value * Pow10(v.exponent) <= 0)
    ensures v.Number? ==> r.Some? && v.mantissa - Pow10(v.exponent) < r.value * Pow10(v.exponent) < v.mantissa + Pow10(v.exponent)
    ensures v.Null? || v.Container? ==> r.None?
    ensures v.Boolean? ==> r == Some(if v.b then 1 else 0)
    ensures v.Text? ==> r == ParseInt(v.s)
  {
    match v
    case Number(m, e) => Some(TruncDiv(m, Pow10(e)))
    case Text(s) => ParseInt(s)
    case Boolean(b) => Some(if b then 1 else 0)
    case Null => None
    case Container => None
  }

  /** Text that is not an integer does not convert: a quantity or id sent as
      "abc", "2.5" or "1.0" makes int() raise. */
  lemma NonIntegerTextExample()
    ensures ToInt(Text("abc")) == None
    ensures ToInt(Text("2.5")) == None
    ensures ToInt(Text("1.0")) == None
    ensures ToInt(Text("-")) == None
    ensures ToInt(Text("")) == None
  {
    assert !IsDigit("abc"[0]);
    assert !IsDigit("2.5"[1]);
    assert !IsDigit("1.0"[1]);
  }

  /** A "+" sign or a "-0" converts to the number it names. */
  lemma SignedTextExample()
    ensures ToInt(Text("+5")) == Some(5)
    ensures ToInt(Text("-0")) == Some(0)
  {
    ParseIntPlusAndZero("5");
    ParseIntShow(5);
    assert "+" + "5" == "+5" && Show(5) == "5";
    assert "-0"[1..] == "0" && DigitsValue("0") == 0;
  }

  /** Leading zeros convert to the number the remaining digits name. */
  lemma LeadingZerosExample()
    ensures ToInt(Text("007")) == Some(7)
    ensures ToInt(Text("-007")) == Some(-7)
  {
    ParseIntPlusAndZero("07");
    ParseIntPlusAndZero("7");
    ParseIntShow(7);
    ParseIntShow(-7);
    assert "0" + "07" == "007" && "0" + "7" == "07" && Show(7) == "7";
    assert "-0" + "07" == "-007" && "-0" + "7" == "-07" && "-" + "7" == "-7" && Show(-7) == "-7";
  }

  /** A quantity or id sent as the text of an integer converts to that integer. */
  lemma ToIntOfText(n: int)
    ensures ToInt(Text(Show(n))) == Some(n)
  {
    ParseIntShow(n);
  }
}

=== FILE: report.dfy ===
/**
 * The arithmetic of the weekly sales report: the Monday that starts the
 * current week, the sales made on or after it, each sale's total and the
 * grand total.
 */
module Report {
  import opened Models

  /** Day of the week, Monday 0 to Sunday 6. Ordinal 1 (0001-01-01) is a
      Monday, so this is the weekday Python computes from the ordinal. */
  function Weekday(d: Ordinal): (w: int)
    ensures 0 <= w < 7
  {
    (d + 6) % 7
  }

  /** today minus its weekday: the Monday of today's week. */
  function WeekStart(today: Ordinal): (monday: Ordinal)
    ensures Weekday(monday) == 0
    ensures monday <= today <= monday + 6
    ensures forall d: Ordinal :: monday < d <= today ==> Weekday(d) != 0
  {
    var w := Weekday(today);
    assert today + 6 == 7 * ((today + 6) / 7) + w;
    today - w
  }

  /** One data row of the report: sale id, date, customer and sale total. */
  datatype Row = Row(saleId: nat, day: Ordinal, customer: CustomerId, total: int)

  /** The rows for the sales made on or after from, in id order; the sale at
      position k of sales has id k + 1. */
  function Rows(sales: seq<Sale>, from: Ordinal): seq<Row> {
    if |sales| == 0 then []
    else
      var last := sales[|sales| - 1];
      Rows(sales[..|sales| - 1], from)
        + (if last.day >= from then [Row(|sales|, last.day, last.customer, Total(last.lines))] else [])
  }

  /** Every line of every sale made on or after from. */
  function LinesSince(sales: seq<Sale>, from: Ordinal): seq<Line> {
    if |sales| == 0 then []
    else
      var last := sales[|sales| - 1];
      LinesSince(sales[..|sales| - 1], from) + (if last.day >= from then last.lines else [])
  }

  function SumOfTotals(rows: seq<Row>): int {
    if |rows| == 0 then 0 else SumOfTotals(rows[..|rows| - 1]) + rows[|rows| - 1].total
  }

  /** A row names a sale made on or after from and carries that sale's
      date, customer and total. */
  predicate RowOf(sales: seq<Sale>, from: Ordinal, row: Row) {
    && 1 <= row.saleId <= |sales|
    && sales[row.saleId - 1].day >= from
    && row.day == sales[row.saleId - 1].day
    && row.customer == sales[row.saleId - 1].customer
    && row.total == Total(sales[row.saleId - 1].lines)
  }

  /** Every row of the report is one of the selected sales, with its own
      total, and rows come in increasing id order. */
  lemma {:induction false} RowsAreSelectedSales(sales: seq<Sale>, from: Ordinal)
    ensures forall k :: 0 <= k < |Rows(sales, from)| ==> RowOf(sales, from, Rows(sales, from)[k])
    ensures forall k, m :: 0 <= k < m < |Rows(sales, from)| ==> Rows(sales, from)[k].saleId < Rows(sales, from)[m].saleId
  {
    if |sales| > 0 {
      var init := sales[..|sales| - 1];
      RowsAreSelectedSales(init, from);
      var rows := Rows(sales, from);
      var prev := Rows(init, from);
      assert rows[..|prev|] == prev;
      forall k | 0 <= k < |prev|
        ensures RowOf(sales, from, rows[k]) && rows[k].saleId <= |init|
      {
        assert rows[k] == prev[k];
        assert RowOf(init, from, prev[k]);
        assert init[prev[k].saleId - 1] == sales[prev[k].saleId - 1];
      }
    }
  }

  predicate HasRow(rows: seq<Row>, saleId: nat) {
    exists k :: 0 <= k < |rows| && rows[k].saleId == saleId
  }

  /** Every sale made on or after from has a row in the report. */
  lemma {:induction false} SelectedSalesHaveRows(sales: seq<Sale>, from: Ordinal)
    ensures forall j :: 0 <= j < |sales| && sales[j].day >= from ==> HasRow(Rows(sales, from), j + 1)
  {
    if |sales| > 0 {
      var init := sales[..|sales| - 1];
      SelectedSalesHaveRows(init, from);
      var rows := Rows(sales, from);
      var prev := Rows(init, from);
      assert rows[..|prev|] == prev;
      forall j | 0 <= j < |sales| && sales[j].day >= from
        ensures HasRow(rows, j + 1)
      {
        if j < |init| {
          assert init[j] == sales[j];
          assert HasRow(prev, j + 1);
          var k :| 0 <= k < |prev| && prev[k].saleId == j + 1;
          assert rows[k] == prev[k];
        } else {
          assert rows == prev + [Row(|sales|, sales[j].day, sales[j].customer, Total(sales[j].lines))];
          assert rows[|prev|].saleId == j + 1;
        }
      }
    }
  }

  /**
   * The report: the Monday of today's week, one row per sale made on or
   * after it, and the grand total, which is both the sum of the rows'
   * totals and the total of every line those sales hold.
   */
  method WeeklyReport(sales: seq<Sale>, today: Ordinal) returns (monday: Ordinal, rows: seq<Row>, grand: int)
    ensures monday == WeekStart(today)
    ensures rows == Rows(sales, monday)
    ensures grand == SumOfTotals(rows)
    ensures grand == Total(LinesSince(sales, monday))
  {
    monday := WeekStart(today);
    rows := [];
    grand := 0;
    var i := 0;
    while i < |sales|
      invariant 0 <= i <= |sales|
      invariant rows == Rows(sales[..i], monday)
      invariant grand == SumOfTotals(rows)
      invariant grand == Total(LinesSince(sales[..i], monday))
    {
      var sale := sales[i];
      assert sales[..i + 1][..i] == sales[..i];
      assert sales[..i + 1][i] == sale;
      if sale.day >= monday {
        var total := Total(sale.lines);
        TotalAppend(LinesSince(sales[..i], monday), sale.lines);
        rows := rows + [Row(i + 1, sale.day, sale.customer, total)];
        assert rows[..|rows| - 1] == Rows(sales[..i], monday);
        grand := grand + total;
      } else {
        assert LinesSince(sales[..i], monday) + [] == LinesSince(sales[..i], monday);
        assert rows + [] == rows;
      }
      i := i + 1;
    }
    assert sales[..i] == sales;
  }
}

=== FILE: sale_properties.dfy ===
/**
 * Properties of the sale processor that relate several calls or several
 * lines: how the cart loop moves stock, where it stops, what a committed
 * sale is worth, and the stock the handler leaves behind in each revision.
 */
module SaleProperties {
  import opened Wrappers
  import opened PyInt
  import opened Models
  import opened Sales

  /** How many units of item k a list of lines sells. */
  function Sold(lines: seq<Line>, k: ItemId): nat {
    if |lines| == 0 then 0
    else (if lines[0].item == k then lines[0].quantity else 0) + Sold(lines[1..], k)
  }

  predicate StockNonNegative(items: map<ItemId, Item>) {
    forall k :: k in items ==> items[k].quantity >= 0
  }

  /** The cart loop lowers each item's stock by Factor(rev) times the
      quantity its lines sell, and leaves every other item as it was. */
  lemma {:induction false} RunStock(rev: Revision, items: map<ItemId, Item>, user: UserId, cart: seq<CartEntry>)
    requires Run(rev, items, user, cart).Ok?
    ensures var (final, lines) := Run(rev, items, user, cart).value;
      forall k :: k in items ==> final[k].quantity == items[k].quantity - Factor(rev) * Sold(lines, k)
  {
    if |cart| > 0 {
      var (next, line) := SellLine(rev, items, user, cart[0]).value;
      var (final, lines) := Run(rev, next, user, cart[1..]).value;
      RunStock(rev, next, user, cart[1..]);
      assert Run(rev, items, user, cart).value == (final, [line] + lines);
      assert ([line] + lines)[1..] == lines;
    }
  }

  /**
   * Lines run in submission order and the loop stops at the first failing
   * one: the cart fails at position i with error e exactly when the lines
   * before i all succeed and line i, checked against the stock those lines
   * left, fails with e.
   */
  lemma {:induction false} RunFirstFailure(rev: Revision, items: map<ItemId, Item>, user: UserId,
                                           cart: seq<CartEntry>, i: nat, e: LineError)
    requires i < |cart|
    decreases i, 1
    ensures Run(rev, items, user, cart) == Err((i, e)) <==>
      && Run(rev, items, user, cart[..i]).Ok?
      && SellLine(rev, Run(rev, items, user, cart[..i]).value.0, user, cart[i]) == Err(e)
  {
    if i == 0 {
      RunFailsAtHead(rev, items, user, cart, e);
    } else if SellLine(rev, items, user, cart[0]).Err? {
      RunStopsAtHead(rev, items, user, cart);
      RunStopsAtHead(rev, items, user, cart[..i]);
    } else {
      RunFirstFailureStep(rev, items, user, cart, i, e);
    }
  }

  /** The inductive step of RunFirstFailure: after a successful first line,
      failing at i is the rest failing at i - 1. */
  lemma RunFirstFailureStep(rev: Revision, items: map<ItemId, Item>, user: UserId,
                            cart: seq<CartEntry>, i: nat, e: LineError)
    requires 0 < i < |cart| && SellLine(rev, items, user, cart[0]).Ok?
    decreases i, 0
    ensures Run(rev, items, user, cart) == Err((i, e)) <==>
      && Run(rev, items, user, cart[..i]).Ok?
      && SellLine(rev, Run(rev, items, user, cart[..i]).value.0, user, cart[i]) == Err(e)
  {
    var prefix := cart[..i];
    assert prefix[0] == cart[0];
    var next := SellLine(rev, items, user, cart[0]).value.0;
    var rest := cart[1..];
    RunFirstFailure(rev, next, user, rest, i - 1, e);
    assert prefix[1..] == rest[..i - 1];
    assert rest[i - 1] == cart[i];
    RunAfterFirst(rev, items, user, cart);
    RunAfterFirst(rev, items, user, prefix);
    var whole, tail := Run(rev, items, user, cart), Run(rev, next, user, rest);
    assert whole == Err((i, e)) <==> tail == Err((i - 1, e));
    var pre, tailPre := Run(rev, items, user, prefix), Run(rev, next, user, rest[..i - 1]);
    assert pre.Ok? <==> tailPre.Ok?;
    assert pre.Ok? ==> pre.value.0 == tailPre.value.0;
  }

  /** The loop fails at its first line exactly when that line fails. */
  lemma RunFailsAtHead(rev: Revision, items: map<ItemId, Item>, user: UserId, cart: seq<CartEntry>, e: LineError)
    requires |cart| > 0
    ensures Run(rev, items, user, cart) == Err((0, e)) <==> SellLine(rev, items, user, cart[0]) == Err(e)
    ensures Run(rev, items, user, cart[..0]) == Ok((items, []))
  {
    assert cart[..0] == [];
  }

  /** A failing first line stops the loop there. */
  lemma RunStopsAtHead(rev: Revision, items: map<ItemId, Item>, user: UserId, cart: seq<CartEntry>)
    requires |cart| > 0 && SellLine(rev, items, user, cart[0]).Err?
    ensures Run(rev, items, user, cart) == Err((0, SellLine(rev, items, user, cart[0]).error))
  {
  }

  /** Once the first line sells, the loop fails at i + 1 exactly when the
      rest fails at i, and succeeds with the stock the rest leaves. */
  lemma RunAfterFirst(rev: Revision, items: map<ItemId, Item>, user: UserId, cart: seq<CartEntry>)
    requires |cart| > 0 && SellLine(rev, items, user, cart[0]).Ok?
    ensures var rest := Run(rev, SellLine(rev, items, user, cart[0]).value.0, user, cart[1..]);
      && Run(rev, items, user, cart).Ok? == rest.Ok?
      && (rest.Ok? ==> Run(rev, items, user, cart).value.0 == rest.value.0)
      && (rest.Err? ==> Run(rev, items, user, cart) == Err((rest.error.0 + 1, rest.error.1)))
  {
  }

  /**
   * Every line is checked against the stock the earlier lines of the same
   * cart left: once the first i lines have succeeded, line i is accepted
   * exactly when it is sellable against stock lowered by Factor(rev) times
   * what those lines sold.
   */
  lemma LaterLinesSeeEarlierDecrements(rev: Revision, items: map<ItemId, Item>, user: UserId,
                                       cart: seq<CartEntry>, i: nat)
    requires i < |cart|
    requires Run(rev, items, user, cart[..i]).Ok?
    ensures var (seen, lines) := Run(rev, items, user, cart[..i]).value;
      && (forall k :: k in items ==> k in seen && seen[k].quantity == items[k].quantity - Factor(rev) * Sold(lines, k))
      && (SellLine(rev, seen, user, cart[i]).Ok? <==> Sellable(seen, user, cart[i]))
      && (Run(rev, items, user, cart).Err? && Run(rev, items, user, cart).error.0 == i <==> !Sellable(seen, user, cart[i]))
  {
    RunStock(rev, items, user, cart[..i]);
    var seen := Run(rev, items, user, cart[..i]).value.0;
    var step := SellLine(rev, seen, user, cart[i]);
    if step.Err? {
      RunFirstFailure(rev, items, user, cart, i, step.error);
    } else if Run(rev, items, user, cart).Err? && Run(rev, items, user, cart).error.0 == i {
      RunFirstFailure(rev, items, user, cart, i, Run(rev, items, user, cart).error.1);
    }
  }

  /** With the single decrement, the loop never drives a sold item's stock
      below zero: each line checks its quantity against current stock. */
  lemma {:induction false} CorrectedRunSoldStock(items: map<ItemId, Item>, user: UserId, cart: seq<CartEntry>)
    requires Run(Corrected, items, user, cart).Ok?
    ensures forall k :: k in items && Sold(Run(Corrected, items, user, cart).value.1, k) > 0 ==>
      Run(Corrected, items, user, cart).value.0[k].quantity >= 0
  {
    if |cart| > 0 {
      var step := SellLine(Corrected, items, user, cart[0]).value;
      var next := step.0;
      var line := step.1;
      var tail := Run(Corrected, next, user, cart[1..]).value;
      CorrectedRunSoldStock(next, user, cart[1..]);
      RunStock(Corrected, next, user, cart[1..]);
      var lines := [line] + tail.1;
      assert Run(Corrected, items, user, cart).value == (tail.0, lines);
      assert lines[1..] == tail.1;
      forall k | k in items && Sold(lines, k) > 0
        ensures tail.0[k].quantity >= 0
      {
        if Sold(tail.1, k) == 0 {
          assert k == line.item;
        }
      }
    }
  }

  /** With the single decrement, a sale keeps non-negative stock non-negative. */
  lemma {:induction false} CorrectedRunKeepsStock(items: map<ItemId, Item>, user: UserId, cart: seq<CartEntry>)
    requires StockNonNegative(items)
    requires Run(Corrected, items, user, cart).Ok?
    ensures StockNonNegative(Run(Corrected, items, user, cart).value.0)
  {
    RunStock(Corrected, items, user, cart);
    CorrectedRunSoldStock(items, user, cart);
  }

  /** A committed sale is worth its lines at the catalog prices of the
      moment of sale: each line carries that price as its own copy. */
  lemma {:induction false} LinesAtCatalogPrices(items: map<ItemId, Item>, user: UserId, lines: seq<Line>)
    requires forall j :: 0 <= j < |lines| ==> LineOf(items, user, lines[j])
    ensures Total(lines) == CatalogValue(items, lines)
  {
    if |lines| > 0 {
      LinesAtCatalogPrices(items, user, lines[1..]);
    }
  }

  /** What lines are worth at the current catalog prices of an item map. */
  function CatalogValue(items: map<ItemId, Item>, lines: seq<Line>): int {
    if |lines| == 0 then 0
    else
      (if lines[0].item in items then lines[0].quantity * items[lines[0].item].price else 0)
      + CatalogValue(items, lines[1..])
  }

  /** The cart a request decodes to, when it gets that far. */
  function DecodedCart(cartField: Option<string>, decode: string -> Option<seq<CartEntry>>): Option<seq<CartEntry>> {
    if Blank(cartField) then None else decode(cartField.value)
  }

  /**
   * On a commit, every item's stock drops by Factor(rev) times what the new
   * sale sells of it: twice the sold quantity as the handler is written,
   * once in the corrected handler.
   */
  lemma ProcessSaleStock(rev: Revision, s: Store, user: UserId, customerField: Option<string>,
                         cartField: Option<string>, decode: string -> Option<seq<CartEntry>>, today: Ordinal)
    requires ProcessSale(rev, s, user, customerField, cartField, decode, today).Committed?
    ensures var after := ProcessSale(rev, s, user, customerField, cartField, decode, today).store;
      forall k :: k in s.items ==>
        after.items[k].quantity == s.items[k].quantity - Factor(rev) * Sold(after.sales[|s.sales|].lines, k)
  {
    RunStock(rev, s.items, user, DecodedCart(cartField, decode).value);
  }

  /** A committed sale's total is what its lines were worth at the catalog
      prices the items had when it was made. */
  lemma CommittedSaleTotal(rev: Revision, s: Store, user: UserId, customerField: Option<string>,
                           cartField: Option<string>, decode: string -> Option<seq<CartEntry>>, today: Ordinal)
    requires ProcessSale(rev, s, user, customerField, cartField, decode, today).Committed?
    ensures var after := ProcessSale(rev, s, user, customerField, cartField, decode, today).store;
      Total(after.sales[|s.sales|].lines) == CatalogValue(s.items, after.sales[|s.sales|].lines)
  {
    var after := ProcessSale(rev, s, user, customerField, cartField, decode, today).store;
    LinesAtCatalogPrices(s.items, user, after.sales[|s.sales|].lines);
  }

  /**
   * A request that passes the form checks and resolves its customer fails
   * at line i with error e exactly when the lines before i all succeed and
   * line i fails with e against the stock they left.
   */
  lemma ProcessSaleFirstFailure(rev: Revision, s: Store, user: UserId, customerField: Option<string>,
                                cartField: Option<string>, decode: string -> Option<seq<CartEntry>>,
                                today: Ordinal, cart: seq<CartEntry>, i: nat, e: LineError)
    requires !Blank(customerField) && ResolveCustomer(s, customerField.value).Some?
    requires !Blank(cartField) && decode(cartField.value) == Some(cart) && i < |cart|
    ensures ProcessSale(rev, s, user, customerField, cartField, decode, today) == Refused(s, LineFailed(i, e)) <==>
      && Run(rev, s.items, user, cart[..i]).Ok?
      && SellLine(rev, Run(rev, s.items, user, cart[..i]).value.0, user, cart[i]) == Err(e)
  {
    RunFirstFailure(rev, s.items, user, cart, i, e);
  }

  /** A one-line cart does what its line does. */
  lemma RunOneLine(rev: Revision, items: map<ItemId, Item>, user: UserId, e: CartEntry)
    ensures Run(rev, items, user, [e]) ==
      match SellLine(rev, items, user, e)
      case Ok((after, line)) => Ok((after, [line]))
      case Err(err) => Err((0, err))
  {
    assert [e][1..] == [];
    var step := SellLine(rev, items, user, e);
    if step.Ok? {
      var (after, line) := step.value;
      assert Run(rev, after, user, []) == Ok((after, []));
      assert [line] + [] == [line];
    }
  }

  /** Item 1, named "A", with the given stock and price 10.00, owned by
      user 7; customer 1 exists; no sales yet. */
  function ExampleStore(stock: int): Store {
    Store(map[1 := Item("A", stock, 1000, 7)], {1}, [])
  }

  function LineFor(item: int, quantity: int): CartEntry {
    Entry(Present(Number(item, 0)), Present(Number(quantity, 0)))
  }

  /** Selling 3 of an item with stock 5, as the handler is written, leaves
      stock at -1 where a single decrement leaves 2. */
  lemma DoubleDecrementExample()
    ensures ProcessSale(AsWritten, ExampleStore(5), 7, Some("1"), Some("[...]"), _ => Some([LineFor(1, 3)]), 1)
      == Committed(Store(map[1 := Item("A", -1, 1000, 7)], {1}, [Sale(1, 1, [Line(1, 3, 1000)])]), 1)
    ensures ProcessSale(Corrected, ExampleStore(5), 7, Some("1"), Some("[...]"), _ => Some([LineFor(1, 3)]), 1)
      == Committed(Store(map[1 := Item("A", 2, 1000, 7)], {1}, [Sale(1, 1, [Line(1, 3, 1000)])]), 1)
  {
    assert DigitsValue("1") == 1;
    var items := ExampleStore(5).items;
    var cart := [LineFor(1, 3)];
    assert cart[1..] == [];
    assert items[1 := Item("A", -1, 1000, 7)] == map[1 := Item("A", -1, 1000, 7)];
    assert items[1 := Item("A", 2, 1000, 7)] == map[1 := Item("A", 2, 1000, 7)];
    assert SellLine(AsWritten, items, 7, cart[0]) == Ok((map[1 := Item("A", -1, 1000, 7)], Line(1, 3, 1000)));
    assert SellLine(Corrected, items, 7, cart[0]) == Ok((map[1 := Item("A", 2, 1000, 7)], Line(1, 3, 1000)));
    RunOneLine(AsWritten, items, 7, cart[0]);
    RunOneLine(Corrected, items, 7, cart[0]);
    assert Run(AsWritten, items, 7, cart) == Ok((map[1 := Item("A", -1, 1000, 7)], [Line(1, 3, 1000)]));
    assert Run(Corrected, items, 7, cart) == Ok((map[1 := Item("A", 2, 1000, 7)], [Line(1, 3, 1000)]));
  }

  /** Two lines of 2 against stock 5: the corrected handler sells both and
      leaves 1; as written, the first line already leaves 1, so the second
      is refused and nothing is sold. */
  lemma SameItemTwiceExample()
    ensures Run(Corrected, ExampleStore(5).items, 7, [LineFor(1, 2), LineFor(1, 2)])
      == Ok((map[1 := Item("A", 1, 1000, 7)], [Line(1, 2, 1000), Line(1, 2, 1000)]))
    ensures Run(AsWritten, ExampleStore(5).items, 7, [LineFor(1, 2), LineFor(1, 2)])
      == Err((1, InsufficientStock("A")))
  {
    var items := ExampleStore(5).items;
    var cart := [LineFor(1, 2), LineFor(1, 2)];
    assert cart[1..] == [LineFor(1, 2)];
    assert cart[1..][1..] == [];
    var once := map[1 := Item("A", 3, 1000, 7)];
    assert items[1 := Item("A", 3, 1000, 7)] == once;
    assert once[1 := Item("A", 1, 1000, 7)] == map[1 := Item("A", 1, 1000, 7)];
    assert SellLine(Corrected, items, 7, cart[0]) == Ok((once, Line(1, 2, 1000)));
    assert SellLine(Corrected, once, 7, cart[1]) == Ok((map[1 := Item("A", 1, 1000, 7)], Line(1, 2, 1000)));
    RunOneLine(Corrected, once, 7, cart[1]);
    assert cart[1..] == [cart[1]];
    assert Run(Corrected, once, 7, cart[1..]) == Ok((map[1 := Item("A", 1, 1000, 7)], [Line(1, 2, 1000)]));
    assert [Line(1, 2, 1000)] + [Line(1, 2, 1000)] == [Line(1, 2, 1000), Line(1, 2, 1000)];
  }

  /** Asking for more than the stock refuses the request and keeps stock. */
  lemma InsufficientStockExample(rev: Revision)
    ensures ProcessSale(rev, ExampleStore(2), 7, Some("1"), Some("[...]"), _ => Some([LineFor(1, 5)]), 1)
      == Refused(ExampleStore(2), LineFailed(0, InsufficientStock("A")))
  {
    assert DigitsValue("1") == 1;
  }

  /** A null item id is looked up as IS NULL, finds no item, and the form
      shows the not-found text; nothing is sold. */
  lemma NullItemIdExample(rev: Revision)
    ensures ProcessSale(rev, ExampleStore(5), 7, Some("1"), Some("[...]"),
                        _ => Some([Entry(Present(Null), Present(Number(1, 0)))]), 1)
      == Refused(ExampleStore(5), LineFailed(0, ItemNotFound(None)))
    ensures Message(LineFailed(0, ItemNotFound(None))) == Some(LinePrefix + NotFoundText)
  {
    assert DigitsValue("1") == 1;
    var entry := Entry(Present(Null), Present(Number(1, 0)));
    assert ResolveItem(ExampleStore(5).items, 7, entry.itemId) == Err(ItemNotFound(None));
    RunOneLine(rev, ExampleStore(5).items, 7, entry);
  }

  /** Two requests for 3 of an item with stock 5, one after the other: the
      first commits, the second is refused for insufficient stock (2 left
      when corrected, -1 as written) and leaves the first one's state. */
  lemma SequentialCartsExample(rev: Revision)
    ensures var first := ProcessSale(rev, ExampleStore(5), 7, Some("1"), Some("[...]"), _ => Some([LineFor(1, 3)]), 1);
      && first.Committed?
      && ProcessSale(rev, first.store, 7, Some("1"), Some("[...]"), _ => Some([LineFor(1, 3)]), 1)
         == Refused(first.store, LineFailed(0, InsufficientStock("A")))
  {
    DoubleDecrementExample();
    var left := if rev == AsWritten then -1 else 2;
    var after := Store(map[1 := Item("A", left, 1000, 7)], {1}, [Sale(1, 1, [Line(1, 3, 1000)])]);
    assert ProcessSale(rev, ExampleStore(5), 7, Some("1"), Some("[...]"), _ => Some([LineFor(1, 3)]), 1) == Committed(after, 1);
    assert DigitsValue("1") == 1;
    RunOneLine(rev, after.items, 7, LineFor(1, 3));
  }
}

=== FILE: sales.dfy ===
/**
 * The sale-transaction processor: the POST handler of the sale page. It
 * validates the form (customer, cart text, decoded cart), resolves the
 * customer, then sells the cart's lines in order inside one atomic unit of
 * work: any failing line rolls the whole request back.
 *
 * The handler as written lowers an item's stock twice per line (once inside
 * the line's save, once more in the handler itself). Revision selects
 * between that behaviour and the evidently intended single decrement.
 */
module Sales {
  import opened Wrappers
  import opened PyInt
  import opened Models

  /** AsWritten decrements in the line's save and again in the handler;
      Corrected keeps only the decrement inside the line's save. */
  datatype Revision = AsWritten | Corrected

  /** How many times a sold quantity comes off the stock. */
  function Factor(rev: Revision): nat {
    if rev == AsWritten then 2 else 1
  }

  /** A key of a decoded cart line: absent, or present with some JSON value. */
  datatype Field = Absent | Present(v: JsonValue)

  /** One element of the decoded cart list. Only a JSON object can be
      indexed by key; any other element fails when its key is read. */
  datatype CartEntry = Entry(itemId: Field, quantity: Field) | NotAnObject

  /** Why a cart line failed. Every one of these is raised inside the
      per-line try block, so each rolls the whole sale back. */
  datatype LineError =
    | EntryNotObject                 // indexing a non-object raises TypeError
    | MissingKey(key: string)        // KeyError
    | BadItemId                      // the id does not convert with int()
    | ItemNotFound(id: Option<ItemId>) // no such item of the acting user; None for a null id
    | BadQuantity                    // the quantity does not convert with int()
    | InvalidQuantity(q: int)        // "Quantidade inválida"
    | InsufficientStock(name: string)

  /** Why a request produced no sale. */
  datatype Failure =
    | NoCustomer                     // "Selecione um cliente."
    | NoCart                         // "Nenhum item foi selecionado para a venda."
    | MalformedCart                  // "Erro ao processar os dados dos itens."
    | EmptyCart                      // "A lista de itens está vazia."
    | CustomerLookupFailed           // uncaught exception: no form is rendered
    | LineFailed(index: nat, error: LineError)

  /** The persisted state the processor reads and writes. The sale at
      position k of sales has id k + 1. */
  datatype Store = Store(items: map<ItemId, Item>, customers: set<CustomerId>, sales: seq<Sale>)

  /** Committed: the new state and the id of the new sale. Refused: the
      state as it was before the request, and the reason. */
  datatype SaleResult =
    | Committed(store: Store, saleId: nat)
    | Refused(store: Store, failure: Failure)

  /** A form field counts as missing when it is absent or empty. */
  predicate Blank(f: Option<string>) {
    f.None? || f.value == ""
  }

  /** Whether k is one of the acting user's items. */
  predicate OwnedBy(items: map<ItemId, Item>, user: UserId, k: ItemId) {
    k in items && items[k].owner == user
  }

  /**
   * The item a cart line names, looked up among the acting user's items.
   * The id goes through the id column's int() conversion, except a null
   * id, which the query layer turns into an IS NULL test that no row meets.
   */
  function ResolveItem(items: map<ItemId, Item>, user: UserId, f: Field): (r: Result<ItemId, LineError>)
    ensures r.Ok? <==> f.Present? && ToInt(f.v).Some? && OwnedBy(items, user, ToInt(f.v).value)
    ensures r.Ok? ==> Some(r.value) == ToInt(f.v) && OwnedBy(items, user, r.value)
    ensures r == Err(MissingKey("item_id")) <==> f.Absent?
    ensures r == Err(ItemNotFound(None)) <==> f == Present(Null)
    ensures r == Err(BadItemId) <==> f.Present? && f.v != Null && ToInt(f.v).None?
    ensures r.Err? && r.error.ItemNotFound? && r.error.id.Some? ==>
      Some(r.error.id.value) == ToInt(f.v) && !OwnedBy(items, user, r.error.id.value)
  {
    match f
    case Absent => Err(MissingKey("item_id"))
    case Present(Null) => Err(ItemNotFound(None))
    case Present(v) =>
      match ToInt(v)
      case None => Err(BadItemId)
      case Some(k) => if OwnedBy(items, user, k) then Ok(k) else Err(ItemNotFound(Some(k)))
  }

  function ReadQuantity(f: Field): Result<int, LineError> {
    match f
    case Absent => Err(MissingKey("quantidade"))
    case Present(v) =>
      match ToInt(v)
      case None => Err(BadQuantity)
      case Some(q) => Ok(q)
  }

  /** The item id a cart line converts to, if it converts. */
  function EntryItem(e: CartEntry): Option<int> {
    if e.Entry? && e.itemId.Present? then ToInt(e.itemId.v) else None
  }

  /** The quantity a cart line converts to, if it converts. */
  function EntryQuantity(e: CartEntry): Option<int> {
    if e.Entry? && e.quantity.Present? then ToInt(e.quantity.v) else None
  }

  /** When a cart line can be sold against the given stock: it names an item
      of the acting user and asks for a positive whole quantity no larger
      than that item's current stock. */
  predicate Sellable(items: map<ItemId, Item>, user: UserId, e: CartEntry) {
    && EntryItem(e).Some?
    && EntryQuantity(e).Some?
    && EntryItem(e).value in items
    && items[EntryItem(e).value].owner == user
    && 0 < EntryQuantity(e).value <= items[EntryItem(e).value].quantity
  }

  /** An item with its stock lowered by amount and nothing else changed. */
  function Decrease(item: Item, amount: int): Item {
    item.(quantity := item.quantity - amount)
  }

  /**
   * One iteration of the cart loop: look the item up, convert the quantity,
   * reject a non-positive quantity, reject a quantity above current stock,
   * create the line with the item's current price (its save decrements
   * stock), then, as written, decrement the same item once more.
   */
  function SellLine(rev: Revision, items: map<ItemId, Item>, user: UserId, e: CartEntry)
    : (r: Result<(map<ItemId, Item>, Line), LineError>)
    ensures r.Ok? <==> Sellable(items, user, e)
    ensures r.Ok? ==>
      var (after, line) := r.value;
      && Some(line.item) == EntryItem(e)
      && Some(line.quantity as int) == EntryQuantity(e)
      && line.unitPrice == items[line.item].price
      && after == items[line.item := Decrease(items[line.item], Factor(rev) * line.quantity)]
    // Which error a failing line gets, in the order the handler checks.
    ensures e.NotAnObject? <==> r == Err(EntryNotObject)
    ensures e.Entry? && ResolveItem(items, user, e.itemId).Err? ==> r == Err(ResolveItem(items, user, e.itemId).error)
    ensures e.Entry? && ResolveItem(items, user, e.itemId).Ok? && e.quantity.Absent? ==>
      r == Err(MissingKey("quantidade"))
    ensures e.Entry? && ResolveItem(items, user, e.itemId).Ok? && e.quantity.Present? && EntryQuantity(e).None? ==>
      r == Err(BadQuantity)
    ensures e.Entry? && ResolveItem(items, user, e.itemId).Ok? && EntryQuantity(e).Some? && EntryQuantity(e).value <= 0 ==>
      r == Err(InvalidQuantity(EntryQuantity(e).value))
    ensures e.Entry? && ResolveItem(items, user, e.itemId).Ok? && EntryQuantity(e).Some? &&
            0 < EntryQuantity(e).value && items[ResolveItem(items, user, e.itemId).value].quantity < EntryQuantity(e).value ==>
      r == Err(InsufficientStock(items[ResolveItem(items, user, e.itemId).value].name))
    ensures r.Err? && r.error.InvalidQuantity? ==> r.error.q <= 0 && Some(r.error.q) == EntryQuantity(e)
  {
    match e
    case NotAnObject => Err(EntryNotObject)
    case Entry(idField, quantityField) =>
      match ResolveItem(items, user, idField)
      case Err(err) => Err(err)
      case Ok(k) =>
        var item := items[k];
        match ReadQuantity(quantityField)
        case Err(err) => Err(err)
        case Ok(q) =>
          if q <= 0 then Err(InvalidQuantity(q))
          else if q > item.quantity then Err(InsufficientStock(item.name))
          else
            match SaveLine(item, q, false)
            case Err(shortage) => Err(InsufficientStock(shortage.itemName))
            case Ok(saved) =>
              var after := if rev == AsWritten then Decrease(saved, q) else saved;
              Ok((items[k := after], Line(k, q, item.price)))
  }

  /** Only stock differs between two item maps. */
  predicate SameCatalog(a: map<ItemId, Item>, b: map<ItemId, Item>) {
    && a.Keys == b.Keys
    && forall k :: k in a ==> a[k].name == b[k].name && a[k].price == b[k].price && a[k].owner == b[k].owner
  }

  /** A created line refers to one of the acting user's items, sells a
      positive quantity and carries that item's catalog price. */
  predicate LineOf(items: map<ItemId, Item>, user: UserId, l: Line) {
    l.item in items && items[l.item].owner == user && l.quantity > 0 && l.unitPrice == items[l.item].price
  }

  /**
   * The cart loop, in submission order, each line seeing the stock the
   * earlier lines left. Ok carries the stock afterwards and the created
   * lines; Err carries the position of the first failing line and its error.
   */
  function Run(rev: Revision, items: map<ItemId, Item>, user: UserId, cart: seq<CartEntry>)
    : (r: Result<(map<ItemId, Item>, seq<Line>), (nat, LineError)>)
    decreases |cart|
    ensures r.Ok? ==> SameCatalog(items, r.value.0) && |r.value.1| == |cart|
    ensures r.Err? ==> r.error.0 < |cart|
  {
    if |cart| == 0 then Ok((items, []))
    else
      match SellLine(rev, items, user, cart[0])
      case Err(e) => Err((0, e))
      case Ok((next, line)) =>
        match Run(rev, next, user, cart[1..])
        case Err((i, e)) => Err((i + 1, e))
        case Ok((final, lines)) => Ok((final, [line] + lines))
  }

  /** A successful cart loop creates, in cart order, one line per entry with
      that entry's item and quantity, each a positive sale of one of the
      acting user's items at the price it had before the loop. */
  lemma {:induction false} RunLines(rev: Revision, items: map<ItemId, Item>, user: UserId, cart: seq<CartEntry>)
    requires Run(rev, items, user, cart).Ok?
    ensures forall j :: 0 <= j < |cart| ==> LineOf(items, user, Run(rev, items, user, cart).value.1[j])
    ensures forall j :: 0 <= j < |cart| ==> Some(Run(rev, items, user, cart).value.1[j].item) == EntryItem(cart[j])
    ensures forall j :: 0 <= j < |cart| ==>
      Some(Run(rev, items, user, cart).value.1[j].quantity as int) == EntryQuantity(cart[j])
  {
    if |cart| > 0 {
      var (next, line) := SellLine(rev, items, user, cart[0]).value;
      var tail := Run(rev, next, user, cart[1..]).value.1;
      RunLines(rev, next, user, cart[1..]);
      var lines := [line] + tail;
      assert Run(rev, items, user, cart).value.1 == lines;
      forall j | 1 <= j < |cart|
        ensures LineOf(items, user, lines[j]) && Some(lines[j].item) == EntryItem(cart[j])
        ensures Some(lines[j].quantity as int) == EntryQuantity(cart[j])
      {
        assert lines[j] == tail[j - 1];
        assert cart[1..][j - 1] == cart[j];
      }
    }
  }

  /** Whether the form's customer id names an existing customer. */
  function ResolveCustomer(s: Store, text: string): (r: Option<CustomerId>)
    ensures r.Some? ==> r.value in s.customers && ParseInt(text) == Some(r.value)
    ensures r.None? <==> ParseInt(text).None? || ParseInt(text).value !in s.customers
  {
    match ParseInt(text)
    case None => None
    case Some(c) => if c in s.customers then Some(c) else None
  }

  /**
   * The sale POST handler. customerField and cartField are the two form
   * fields, decode stands for JSON decoding of the cart text (None is a
   * decode error), today is the local date the sale is stamped with.
   */
  function ProcessSale(rev: Revision, s: Store, user: UserId, customerField: Option<string>,
                       cartField: Option<string>, decode: string -> Option<seq<CartEntry>>, today: Ordinal)
    : (r: SaleResult)
    // Every refusal leaves the state exactly as it was.
    ensures r.Refused? ==> r.store == s
    // The form checks, in order, each with its own failure.
    ensures r == Refused(s, NoCustomer) <==> Blank(customerField)
    ensures r == Refused(s, NoCart) <==> !Blank(customerField) && Blank(cartField)
    ensures r == Refused(s, MalformedCart) <==>
      !Blank(customerField) && !Blank(cartField) && decode(cartField.value).None?
    ensures r == Refused(s, EmptyCart) <==>
      !Blank(customerField) && !Blank(cartField) && decode(cartField.value) == Some([])
    ensures r == Refused(s, CustomerLookupFailed) <==>
      && !Blank(customerField) && !Blank(cartField)
      && decode(cartField.value).Some? && |decode(cartField.value).value| > 0
      && ResolveCustomer(s, customerField.value).None?
    // A line failure names a position of the decoded cart.
    ensures r.Refused? && r.failure.LineFailed? ==>
      !Blank(cartField) && decode(cartField.value).Some? && r.failure.index < |decode(cartField.value).value|
    // A commit appends exactly one sale and touches nothing but stock.
    ensures r.Committed? ==>
      && !Blank(customerField) && !Blank(cartField) && decode(cartField.value).Some?
      && var cart := decode(cartField.value).value;
      && r.saleId == |s.sales| + 1
      && |r.store.sales| == |s.sales| + 1
      && r.store.sales[..|s.sales|] == s.sales
      && r.store.customers == s.customers
      && SameCatalog(s.items, r.store.items)
      && var sale := r.store.sales[|s.sales|];
      && Some(sale.customer) == ResolveCustomer(s, customerField.value)
      && sale.day == today
      && |sale.lines| == |cart| > 0
      && (forall j :: 0 <= j < |sale.lines| ==> LineOf(s.items, user, sale.lines[j]))
      && (forall j :: 0 <= j < |cart| ==> Some(sale.lines[j].item) == EntryItem(cart[j]))
      && (forall j :: 0 <= j < |cart| ==> Some(sale.lines[j].quantity as int) == EntryQuantity(cart[j]))
  {
    if Blank(customerField) then Refused(s, NoCustomer)
    else if Blank(cartField) then Refused(s, NoCart)
    else
      match decode(cartField.value)
      case None => Refused(s, MalformedCart)
      case Some(cart) =>
        if |cart| == 0 then Refused(s, EmptyCart)
        else
          match ResolveCustomer(s, customerField.value)
          case None => Refused(s, CustomerLookupFailed)
          case Some(c) =>
            match Run(rev, s.items, user, cart)
            case Err((i, e)) => Refused(s, LineFailed(i, e))
            case Ok((items, lines)) =>
              RunLines(rev, s.items, user, cart);
              Committed(Store(items, s.customers, s.sales + [Sale(c, today, lines)]), |s.sales| + 1)
  }

  /** What every line failure's message starts with. */
  const LinePrefix: string := "Erro ao adicionar item: "

  /** The text of the query layer's error for an item that is not found. */
  const NotFoundText: string := "InventoryItem matching query does not exist."

  /** The text of a line error as the handler shows it; None where the text
      is that of a Python or Django exception. */
  function LineErrorText(e: LineError): Option<string> {
    match e
    case InvalidQuantity(_) => Some("Quantidade inválida")
    case InsufficientStock(name) => Some(StockShortageText(StockShortage(name)))
    case MissingKey(key) => Some("'" + key + "'")
    case ItemNotFound(_) => Some(NotFoundText)
    case _ => None
  }

  /** The four checks on the form, made before any line is processed. */
  predicate FormCheck(f: Failure) {
    f.NoCustomer? || f.NoCart? || f.MalformedCart? || f.EmptyCart?
  }

  /** The error message the re-rendered sale form carries. None when the
      failure renders no form (the uncaught customer lookup) or its text
      comes from a library exception. */
  function Message(f: Failure): (m: Option<string>)
    ensures f.CustomerLookupFailed? ==> m.None?
    ensures FormCheck(f) ==> m.Some? && |m.value| > 0
    ensures f == NoCustomer ==> m == Some("Selecione um cliente.")
    ensures f.LineFailed? && m.Some? ==> LinePrefix <= m.value
    ensures f.LineFailed? && f.error.InsufficientStock? ==>
      m == Some(LinePrefix + StockShortageText(StockShortage(f.error.name)))
    ensures f.LineFailed? && f.error.ItemNotFound? ==> m == Some(LinePrefix + NotFoundText)
  {
    match f
    case NoCustomer => Some("Selecione um cliente.")
    case NoCart => Some("Nenhum item foi selecionado para a venda.")
    case MalformedCart => Some("Erro ao processar os dados dos itens.")
    case EmptyCart => Some("A lista de itens está vazia.")
    case CustomerLookupFailed => None
    case LineFailed(_, e) =>
      match LineErrorText(e)
      case None => None
      case Some(text) => Some(LinePrefix + text)
  }

  /** The message tells a form check apart from every other form check and
      from every line failure: each failed check has its own text. */
  lemma FormMessagesDistinct(f: Failure, g: Failure)
    requires FormCheck(f) && (FormCheck(g) || g.LineFailed?)
    ensures Message(f) == Message(g) ==> f == g
  {
    var m := Message(f).value;
    if g.LineFailed? && Message(g).Some? {
      assert LinePrefix <= Message(g).value;
      // Each form text differs from the line prefix within its first 24 characters.
      assert |m| < |LinePrefix| || m[0] != LinePrefix[0] || m[8] != LinePrefix[8];
    }
  }
}

=== FILE: wrappers.dfy ===
/** Failure-carrying value types shared by the other modules. */
module Wrappers {

  /** A value that may be missing: a lookup that found nothing, a conversion that failed. */
  datatype Option<+T> = None | Some(value: T)

  /** The outcome of a step that either produces a value or stops with an error. */
  datatype Result<+T, +E> = Ok(value: T) | Err(error: E)
}
